=== FILE: README.md ===
# Dreamy dream journal — a verified model of its core

Dreamy is a mobile dream journal. A user writes or dictates a dream. The app
stores it in a `dreams` table and sends the text to an `analyze-dream` edge
function. That function checks the request and the caller. It then asks a
language model for a title, an interpretation, a mood and keywords, and returns
them if they have the expected shape. The client copies them onto the stored
dream. If analysis fails, the client keeps the dream unanalysed.

This project models, in Dafny:

- the edge function's request pipeline;
- the client's error-message classification;
- the create-then-analyze data layer over an in-memory table;
- the new-dream screen;
- the onboarding stepper and the `hasSeenWelcome` flag it writes;
- the sign-in screen's redirect decision on that flag;
- the journal card and the mood badge.

Modules, one per concern:

| module | file | models |
|---|---|---|
| `Wrappers` | wrappers.dfy | `Option` and `Result` |
| `JsStrings` | js_strings.dfy | the ECMAScript string operations used: `trim`, `indexOf`, `includes`, `replace` with a string pattern, `split(sep)[0]` |
| `JsonValue` | json_value.dfy | parsed JSON values, property reads and JavaScript truthiness |
| `DreamTypes` | dream_types.dfy | the record shapes of lib/types.ts |
| `AnalyzeDreamFunction` | analyze_dream.dfy | supabase/functions/analyze-dream/index.ts |
| `ErrorHandler` | error_handler.dfy | lib/errorHandler.ts |
| `Database` | database.dfy | lib/database.ts |
| `Ui`, `DeviceStorage` | ui.dfy, device_storage.dfy | alerts, router targets, and the device key-value store |
| `NewDreamScreen` | new_dream.dfy | app/dream/new.tsx |
| `Welcome` | welcome.dfy | app/welcome.tsx |
| `LoginScreen` | login_screen.dfy | app/index.tsx |
| `DreamCard` | dream_card.dfy | components/DreamCard.tsx |
| `MoodBadge` | mood_badge.dfy | components/MoodBadge.tsx |

The edge function is a pure function `Serve(request, env, outcomes)`. The
outcomes say what each collaborator would answer:

- whether the body parses;
- whether the token resolves to a user;
- whether the completion call succeeds and parses.

The result is the response plus the list of collaborator calls actually made.
That list is what lets the model state "no completion call unless the body was
valid and the caller authenticated".

State that the app changes in place is modelled as classes:

- the dreams table (`Database.DreamStore`);
- the device store (`DeviceStorage.KeyValueStore`);
- the screens' component state.

Each class's methods are specified by pure functions, and the properties are
proved about those functions.

## Model

| member | source | states |
|---|---|---|
| AnalyzeDreamFunction.Serve | supabase/functions/analyze-dream/index.ts:26-168 | Every response carries CORS headers and has status 200, 400, 401 or 500. OPTIONS gets the "ok" preflight before any other check and makes no calls. A missing key or Supabase variable gives 500 with its message before the body is read. A body that is not JSON gives 500, not 400, carrying the parse error's message or "Internal server error" when that is empty. A `null` body gives 500 with the destructuring TypeError's message. 400 is returned exactly when the parsed body lacks a non-empty string `dreamContent`, before the Authorization check. A missing header or an unresolved token gives 401 with its message (a missing header after the body has been read), and the completion service is not called. Once the body is accepted and the header is present, the token is always looked up. The completion service is called exactly when every earlier check passed, with the dream text. A completion request that throws gives 500 with its message, or "Internal server error" when that is empty. A non-ok completion gives "OpenAI API error: " plus the message, or "Unknown error". An unparsable completion, a `null` completion and a failed schema check each give their own 500. A 200 is returned exactly when the schema holds, and its body is the parsed object unchanged. |
| AnalyzeDreamFunction.BearerToken | supabase/functions/analyze-dream/index.ts:71 | A header without "Bearer " is passed on unchanged. Otherwise the first "Bearer " is removed, wherever it stands, and the text before and after it is kept. |
| AnalyzeDreamFunction.BearerTokenOfBearerHeader | supabase/functions/analyze-dream/index.ts:71 | `Bearer <t>` yields exactly `t`. |
| AnalyzeDreamFunction.BearerTokenAfterPrefix | supabase/functions/analyze-dream/index.ts:71 | When "Bearer " first occurs after a prefix `p`, the token is `p` followed by what comes after "Bearer ". |
| AnalyzeDreamFunction.BearerTokenOfOtherScheme | supabase/functions/analyze-dream/index.ts:71 | The header `Token Bearer x` yields the token `Token x`. |
| AnalyzeDreamFunction.AcceptedContent | supabase/functions/analyze-dream/index.ts:47-57 | Accepted content is a non-empty string member `dreamContent` of a JSON object, and every such member is accepted. |
| AnalyzeDreamFunction.SchemaValidNeedsObject | supabase/functions/analyze-dream/index.ts:139-147 | Only an object holding `title`, `interpretation`, `mood` and an array `keywords` passes the schema check. |
| JsonValue.Member | supabase/functions/analyze-dream/index.ts:47 | A property read yields a value exactly when the value is an object holding that key, and then yields that member. |
| JsStrings.Trim | app/dream/new.tsx:50 | The result is empty exactly when the text is all white space. Otherwise it neither starts nor ends with white space, and it is no longer than the input. |
| JsStrings.TrimOfPadded | app/dream/new.tsx:50 | White space around a text with non-space ends is exactly what trimming removes. |
| JsStrings.TrimIdempotent | app/dream/new.tsx:67 | Trimming twice equals trimming once, so the screen's trim and the data layer's trim agree. |
| JsStrings.IndexOfFrom | lib/errorHandler.ts:52 | The result is the first index at or after `from` where the needle occurs, or -1 when there is none. |
| JsStrings.IncludesIff | lib/errorHandler.ts:52 | `includes` holds exactly when the needle occurs at some index. |
| JsStrings.NotIncludedWithoutFirstChar | lib/errorHandler.ts:60 | A needle whose first character the text lacks is not included. |
| JsStrings.ReplaceFirst | supabase/functions/analyze-dream/index.ts:71 | Without an occurrence the text is unchanged. With one, the first occurrence is replaced and the text before and after it is kept. The length changes by the replacement's length minus the pattern's. |
| JsStrings.ReplaceLeadingPattern | supabase/functions/analyze-dream/index.ts:71 | Replacing a pattern the text starts with substitutes exactly that prefix. |
| JsStrings.BeforeFirst | app/dream/new.tsx:68 | The result is the text before the first occurrence of the separator: no occurrence starts inside it, and one starts right after it. Without the separator the result is the whole text. |
| ErrorHandler.GetErrorMessage | lib/errorHandler.ts:14-28 | A string is returned as is. An Error yields its message, ahead of the generic object case. An object with `message` yields that text. Anything else yields the fixed fallback. |
| ErrorHandler.LogLines | lib/errorHandler.ts:33-41 | The line is `[ts] ctx: msg` with a non-empty context and `[ts] msg` without one. A second "Stack trace" line appears exactly for an Error with a non-empty stack. |
| ErrorHandler.FirstMatchFrom | lib/errorHandler.ts:49-111 | The result is the first rule at or after `from` whose needle the message includes, or the end of the rules. |
| ErrorHandler.ClassifyIsFixedText | lib/errorHandler.ts:49-111 | Classification answers with a rule's reply or the fallback, never the raw message. |
| ErrorHandler.ClassifyPicksFirstMatch | lib/errorHandler.ts:49-111 | The first matching rule in order decides the answer. |
| ErrorHandler.HandleAuthError | lib/errorHandler.ts:49-65 | The result is one of four fixed texts. Credentials, then email confirmation, then "Network" decide in that order, with the fallback exactly when none matches. |
| ErrorHandler.HandleDatabaseError | lib/errorHandler.ts:70-86 | The result is one of four fixed texts. Row-level security, then duplicate key, then "Network" decide in that order, with the fallback exactly when none matches. |
| ErrorHandler.HandleAIError | lib/errorHandler.ts:91-111 | The result is one of five fixed texts. "rate limit", "Unauthorized", "timeout" and "Network" decide in that priority. |
| ErrorHandler.RateLimitBeatsNetwork | lib/errorHandler.ts:94-108 | A message with both "rate limit" and "Network" maps to the rate-limit text. |
| ErrorHandler.LowerCaseNetworkFallsThrough | lib/errorHandler.ts:102-110 | Matching is case-sensitive, so "network" gets the AI and database fallbacks. |
| Database.DatePart | lib/database.ts:65 | The date part is a prefix of the timestamp that contains no "T". It is the whole timestamp when there is no "T", and otherwise ends right before the first "T". |
| Database.DatePartOfTimestamp | lib/database.ts:65 | For `<date>T<time>` the date part is exactly `<date>`. |
| Database.NewDreamRecord | lib/database.ts:62-67 | The record has the user's id and the trimmed content. Its date is the given one, or today's date part when none is given. `is_lucid` defaults to false. All analysis fields are empty. |
| Database.CreateOutcome | lib/database.ts:52-85 | No user gives "User not authenticated". A rejected insert gives "Failed to create dream: " plus the reason. Success happens exactly when a user is resolved and the insert is accepted under a new id, and then yields that record. |
| Database.ApplyUpdate | lib/database.ts:95-99 | Every field present in the update is written, and every other field is kept. |
| Database.EmptyUpdateIsIdentity | lib/database.ts:95-99 | An update with no fields changes nothing. |
| Database.UpdateOutcome | lib/database.ts:90-112 | An update error gives "Failed to update dream: " plus the message. Success happens exactly when the id exists, and yields the updated row. |
| Database.SessionTokenReachesIdentityCheck | lib/database.ts:148-151 | The edge function extracts exactly the session token the client sends. |
| Database.AnalyzeOutcome | lib/database.ts:134-167 | No session gives "User not authenticated". A non-ok response gives the server's error, or "Failed to analyze dream". A request that throws fails with its own message. Success happens exactly for an analysis. |
| Database.CreateAndAnalyze | lib/database.ts:172-201 | The round succeeds exactly when the create succeeds. |
| Database.CreateFailureStoresNothing | lib/database.ts:177-200 | A failed create propagates its error and stores nothing. |
| Database.CreatedDreamIsStoredAndAnalysed | lib/database.ts:177-181 | A created dream is stored under a new id, and its stored, trimmed content is what gets analysed. |
| Database.AnalysisFailureKeepsSavedDream | lib/database.ts:180-196 | If analysis or the update fails, the saved, unanalysed dream is returned and stays stored. |
| Database.AnalysisCopiesExactlyFourFields | lib/database.ts:181-191 | On success, exactly title, interpretation, mood and keywords are copied onto the stored dream. |
| Database.RoundKeepsExistingRows | lib/database.ts:172-201 | A round never changes or removes an existing row. |
| Database.DreamStore.CreateDream | lib/database.ts:52-85 | Returns `CreateOutcome` and stores the record only on success. |
| Database.DreamStore.UpdateDream | lib/database.ts:90-112 | Returns `UpdateOutcome` and writes the row only on success. |
| Database.DreamStore.CreateAndAnalyzeDream | lib/database.ts:172-201 | The table and the result are those of `CreateAndAnalyze`. |
| DeviceStorage.Lookup | app/index.tsx:30 | Reading a key yields its stored value, or nothing. |
| DeviceStorage.KeyValueStore.SetItem | app/welcome.tsx:65 | A successful write stores the value. A failed write leaves the store unchanged. |
| NewDreamScreen.ValidateEntry | app/dream/new.tsx:49-61 | "Empty Dream" is returned exactly for all-white-space text. "Too Short" is returned exactly when the trimmed text has fewer than 10 characters. An accepted entry is the trimmed text, which has no white space at its ends. |
| NewDreamScreen.SaveErrorAlert | app/dream/new.tsx:74-80 | The title is "Error". The message is the thrown message, or the fixed save-failure text when that message is empty. |
| NewDreamScreen.MergeTranscript | app/dream/new.tsx:120-126 | Text that is not all white space gets `"\n\n"` and the transcript appended. Otherwise the transcript replaces it. |
| NewDreamScreen.TranscriptIsSuffix | app/dream/new.tsx:120-126 | The transcript always ends the new content. |
| NewDreamScreen.CancelActionFor | app/dream/new.tsx:84-102 | Cancel asks for confirmation exactly when the text is not all white space. |
| NewDreamScreen.SavedDreamKeepsTrimmedEntry | app/dream/new.tsx:63-70 | A saved entry stores its trimmed text, the picked date's date part and the lucid flag. |
| NewDreamScreen.NewDreamForm.HandleSave | app/dream/new.tsx:49-82 | A rejected entry shows its alert and saves nothing. An accepted one runs create-then-analyze. Success keeps `isSaving` set and opens `/dream/<id>`. Failure clears `isSaving` and shows the error. |
| NewDreamScreen.NewDreamForm.HandleTranscription | app/dream/new.tsx:120-128 | The content becomes the merge, and the recorder is hidden. |
| NewDreamScreen.NewDreamForm.HandleCancel | app/dream/new.tsx:84-102 | Shows the discard confirmation or goes back, as `CancelActionFor` decides. |
| NewDreamScreen.NewDreamForm.PressDiscard | app/dream/new.tsx:91-95 | The Discard button goes back. |
| Welcome.View | app/welcome.tsx:73-179 | Dot `i` is filled exactly when `i <= step`. The step's data is shown. The feature list appears only on step 0. Skip and the arrow appear only before the last step. The label is "Get Started" on the last step and "Next" otherwise. |
| Welcome.FilledPrefixCount | app/welcome.tsx:83-94 | Dots filled exactly on a prefix of length `k` number `k`. |
| Welcome.FilledDotsShowProgress | app/welcome.tsx:83-94 | Step `s` shows `s + 1` filled dots. |
| Welcome.AfterComplete | app/welcome.tsx:63-71 | A successful write sets `hasSeenWelcome` to "true". A failed write changes nothing. No other key is ever touched. |
| Welcome.Onboarding.HandleComplete | app/welcome.tsx:63-71 | Writes the flag and opens `/(tabs)`, even when the write fails. |
| Welcome.Onboarding.HandleNext | app/welcome.tsx:51-57 | Before the last step it advances by one. On the last step it completes. The step stays in 0..3. |
| Welcome.Onboarding.HandleSkip | app/welcome.tsx:59-61 | Completes from any step. |
| LoginScreen.Redirect | app/index.tsx:21-51 | Nothing happens while loading or signed out. A signed-in user goes to `/(tabs)` exactly when the flag is exactly "true", and to `/welcome` otherwise, including on a read error. |
| LoginScreen.Render | app/index.tsx:72-84 | A spinner is shown exactly while loading, and nothing for a signed-in user. Otherwise sign-in is shown, with its button disabled exactly while signing in. |
| LoginScreen.RenderMatchesRedirect | app/index.tsx:27-84 | The screen renders nothing exactly when it redirects, and never redirects while showing sign-in. |
| LoginScreen.FreshDeviceGoesToWelcome | app/index.tsx:30-39 | A device without the flag sends a signed-in user to onboarding. |
| LoginScreen.CompletedOnboardingGoesToTabs | app/index.tsx:30-35 | After onboarding completes with a successful write, sign-in leads straight to the tabs. |
| LoginScreen.SignInScreen.HandleGoogleSignIn | app/index.tsx:53-70 | A failed sign-in shows the failure alert and resets `isSigningIn`. A successful one leaves it set. |
| DreamCard.TruncateText | components/DreamCard.tsx:37-40 | A text that fits is returned unchanged. Otherwise the result is the trimmed first `maxLength` characters followed by "...", and it is at most `maxLength + 3` long. |
| DreamCard.Card | components/DreamCard.tsx:55-100 | The icon follows the lucid flag. The mood badge and the title appear exactly when present and non-empty. The body is the interpretation when it is non-empty, else the content, truncated to 120. The chips and the "+n" count are exactly the keyword row. |
| DreamCard.KeywordChips | components/DreamCard.tsx:87-100 | There are at most 3 chips, in original order. "+n" appears exactly when there are more than 3 keywords, with `n = len - 3`. Chips plus `n` make the total. There is no row for a missing or empty list. |
| DreamCard.ChipsPartitionKeywords | components/DreamCard.tsx:89-98 | Every keyword is either a chip in its own position or counted in "+n". |
| MoodBadge.BackgroundAsWritten | components/MoodBadge.tsx:37 | An own table entry yields its colour. An inherited member name yields that member. Anything else yields the default. |
| MoodBadge.ConstructorMoodIsNotAColour | components/MoodBadge.tsx:9-37 | The mood "constructor" yields no colour as written. |
| MoodBadge.Palette | components/MoodBadge.tsx:9-34 | The palette holds the default and every table colour. |
| MoodBadge.MoodColor | components/MoodBadge.tsx:9-37 | A listed mood gets its colour, and any other mood gets `#8B5CF6`. The result is always a palette colour. |
| MoodBadge.MoodColorAgreesOutsideInheritedNames | components/MoodBadge.tsx:37 | The intended lookup equals the written one exactly outside the inherited names. |
| MoodBadge.MoodColorExamples | components/MoodBadge.tsx:11-37 | Anxious maps to `#EF4444`, Happy to `#10B981`, and "happy" to the default. |
| MoodBadge.Render | components/MoodBadge.tsx:36-54 | The text is the mood unchanged. The size defaults to small. The background is the mood's table colour (for example "Anxious" gives `#EF4444`), and the default for an unlisted mood. |

## Left out

- String lengths count Unicode code points, not UTF-16 code units. Characters outside the Basic Multilingual Plane count once here and twice in JavaScript, which affects the 10-character minimum and the 120-character truncation.
- `req.json()`, `response.json()` and `JSON.parse` are not modelled as parsers. Their result is an input: a JSON value, or a failure with its message.
- The network calls (identity lookup, the completion service, the database insert, update and select, the edge-function call) are modelled as given outcomes.
- The completion payload's shape (`choices[0].message.content`) is not modelled. A completion is either a parse of its content or a parse failure, and a malformed payload that throws a TypeError is not represented.
- On a non-ok completion, a body that fails to parse is not modelled. Neither is an `error.message` that is not a string. The upstream message is an optional string.
- AnalyzeDreamFunction.Serve: a JSON `null` body and a `null` completion raise a runtime TypeError. That is represented by one fixed, representative message per case.
- MoodBadge.Render: the background is stated as the corrected lookup (`MoodBadge.MoodColor`), not as the lookup as written, so for an inherited member name such as "constructor" it promises a palette colour where the component as written paints a non-colour; `DreamCard.Card` renders its badge through it. The behaviour as written is `MoodBadge.BackgroundAsWritten`; see Findings.
- Database.CreateOutcome and Database.UpdateOutcome: a duplicate id and a missing row are represented by the database's usual message texts, and no other database errors are modelled.
- The request's other headers, the system prompt, the model name, the temperature and the token limit are constants of the outgoing request. They do not affect the response.
- The rate limiting left as a to-do in the edge function does not exist, so it is not modelled.
- `fetchDreams`, `fetchDreamById` and `deleteDream` are thin query wrappers whose filtering and ordering happen in the database.
- `formatDate` in the card and the new-dream screen depends on the clock, the locale and the time zone.
- The clock (`new Date()`) is an input, given as an ISO timestamp string.
- contexts/AuthContext.tsx, components/VoiceRecorder.tsx, lib/supabase.ts and components/LoadingOverlay.tsx are not part of this model. They cover OAuth plumbing, audio recording and upload, client configuration, and presentation.
- Console logging is left out; `ErrorHandler.LogLines` gives the text of the lines instead.
- Styles and layout are left out, as are the colour scheme, the date picker and the text field's length limit.
- The asynchronous interleaving of React state updates is not modelled: each handler runs to completion as one step.
- JSON numbers are mathematical reals, and NaN is not represented.

## Findings

| source | as written | input that shows it | evidently intended | confidence | as-written member | corrected member |
|---|---|---|---|---|---|---|
| components/MoodBadge.tsx:37 | `MOOD_COLORS[mood] \|\| MOOD_COLORS.default` indexes a plain object literal. Names inherited from `Object.prototype` resolve to a function or an object, which is truthy, so the default is skipped and a non-colour becomes the background. | mood `"constructor"` (or `"toString"`, `"__proto__"`) | An own-entry lookup falling back to `#8B5CF6` | not executed; medium: the mood is free text from the language model | MoodBadge.BackgroundAsWritten, MoodBadge.ConstructorMoodIsNotAColour | MoodBadge.MoodColor |

=== FILE: analyze_dream.dfy ===
/**
 * The `analyze-dream` edge function (supabase/functions/analyze-dream/index.ts):
 * one HTTP request in, one response out, through a fixed sequence of guards —
 * CORS preflight, configuration check, body validation, Authorization header,
 * bearer-token resolution, one completion call, JSON parse of the completion,
 * schema check — each with its own status and error message.
 *
 * The environment lookups, the body parse, the identity lookup and the
 * completion call are collaborators; their outcomes are inputs (`Env`,
 * `Outcomes`) and the handler reports which of them it actually called
 * (`Handled.calls`), in order.
 */
module AnalyzeDreamFunction {
  import opened Wrappers
  import opened JsStrings
  import opened JsonValue

  const DreamContentError := "dreamContent is required and must be a string"
  const MissingHeaderError := "Missing authorization header"
  const InvalidTokenError := "Unauthorized - Invalid token"
  const OpenAiKeyError := "OPENAI_API_KEY not configured"
  const SupabaseEnvError := "Supabase environment variables not configured"
  const UpstreamErrorPrefix := "OpenAI API error: "
  const UnknownUpstreamError := "Unknown error"
  const InvalidJsonError := "Invalid JSON response from AI"
  const MissingFieldsError := "AI response missing required fields"
  const InternalError := "Internal server error"
  /** The runtime's TypeError when the request body is the JSON literal `null`. */
  const NullBodyTypeError := "Cannot destructure property 'dreamContent' of '(intermediate value)' as it is null."
  /** The runtime's TypeError when the completion parses to the JSON literal `null`. */
  const NullAnalysisTypeError := "Cannot read properties of null (reading 'title')"
  const BearerPrefix := "Bearer "

  /** Whether each environment variable is set to a non-empty value. */
  datatype Env = Env(openAiKey: bool, supabaseUrl: bool, serviceRoleKey: bool)

  /** The parts of the HTTP request the handler inspects; `authorization` is `headers.get("Authorization")`. */
  datatype Request = Request(httpMethod: string, authorization: Option<string>)

  /** What `req.json()` produces: a parse error with its message, or a JSON value. */
  datatype BodyRead = BodyUnparsable(message: string) | BodyParsed(value: Json)

  /** What `auth.getUser(token)` reports: an error, no user, or a user. */
  datatype UserLookup = LookupFailed | NoUser | Resolved(userId: string)

  /**
   * The completion call: the request itself throws, the service answers with a
   * non-success status (and possibly an `error.message`), or it answers with a
   * message whose content `JSON.parse` turns into `parsed` (`None` when it throws).
   */
  datatype Upstream =
    | FetchFailed(message: string)
    | NotOk(errorMessage: Option<string>)
    | Completed(parsed: Option<Json>)

  /** The collaborators' outcomes for one request; each is consulted only if the handler calls it. */
  datatype Outcomes = Outcomes(body: BodyRead, user: UserLookup, upstream: Upstream)

  /** A collaborator call the handler makes. */
  datatype Call = ReadBody | GetUser(token: string) | Completion(dreamContent: string)

  datatype Body = Text(text: string) | ErrorEnvelope(error: string) | Analysis(value: Json)

  /** Status, body, whether the CORS headers are attached, and whether the body is declared JSON. */
  datatype Response = Response(status: int, body: Body, corsHeaders: bool, jsonContentType: bool)

  datatype Handled = Handled(response: Response, calls: seq<Call>)

  const Preflight := Response(200, Text("ok"), true, false)

  predicate EnvComplete(env: Env) {
    env.openAiKey && env.supabaseUrl && env.serviceRoleKey
  }

  /** `!authHeader` is false: the header is present and non-empty. */
  predicate HasHeader(req: Request) {
    req.authorization.Some? && req.authorization.value != ""
  }

  /**
   * The token sent to the identity service: the header with its first
   * `"Bearer "` removed, wherever it stands; a header without one is sent as is.
   */
  function BearerToken(header: string): (token: string)
    ensures !Includes(header, BearerPrefix) ==> token == header
    ensures Includes(header, BearerPrefix) ==> |token| == |header| - |BearerPrefix|
    ensures Includes(header, BearerPrefix) ==>
              exists k :: && MatchesAt(header, BearerPrefix, k)
                          && (forall j :: 0 <= j < k ==> !MatchesAt(header, BearerPrefix, j))
                          && token == header[..k] + header[k + |BearerPrefix|..]
  {
    var r := ReplaceFirst(header, BearerPrefix, "");
    assert forall a: string, b: string :: a + "" + b == a + b;
    r
  }

  /**
   * Only the first "Bearer " goes, wherever it stands: text before it is kept,
   * so a header whose scheme is not "Bearer" still yields a token.
   */
  lemma BearerTokenAfterPrefix(p: string, t: string)
    requires forall j :: 0 <= j < |p| ==> !MatchesAt(p + BearerPrefix + t, BearerPrefix, j)
    ensures BearerToken(p + BearerPrefix + t) == p + t
  {
    var h := p + BearerPrefix + t;
    assert h[|p|..|p| + |BearerPrefix|] == BearerPrefix;
    assert MatchesAt(h, BearerPrefix, |p|);
    var k := IndexOf(h, BearerPrefix);
    assert k == |p|;
    assert h[..|p|] == p && h[|p| + |BearerPrefix|..] == t;
  }

  /** For example, `Token Bearer x` is sent on as `Token x`. */
  lemma BearerTokenOfOtherScheme()
    ensures BearerToken("Token Bearer x") == "Token x"
  {
    var h := "Token " + BearerPrefix + "x";
    assert h == "Token Bearer x";
    forall j | 0 <= j < |"Token "| ensures !MatchesAt(h, BearerPrefix, j) {
      assert h[j..j + |BearerPrefix|][0] == h[j] != 'B';
    }
    BearerTokenAfterPrefix("Token ", "x");
  }

  /** A header of the form `Bearer <t>` yields exactly `t`. */
  lemma BearerTokenOfBearerHeader(t: string)
    ensures BearerToken(BearerPrefix + t) == t
  {
    ReplaceLeadingPattern(BearerPrefix, t, "");
  }

  /** The dream text the body gate accepts: a non-empty string `dreamContent`; `None` means 400. */
  function AcceptedContent(body: BodyRead): (c: Option<string>)
    ensures c.Some? ==> c.value != ""
    ensures c.Some? ==> body.BodyParsed? && body.value.JObject?
    ensures c.Some? ==> Member(body.value, "dreamContent") == Some(JString(c.value))
    ensures body.BodyParsed? && body.value.JObject? && "dreamContent" in body.value.members
            && body.value.members["dreamContent"].JString? && body.value.members["dreamContent"].s != ""
            ==> c.Some?
  {
    if body.BodyUnparsable? || body.value.JNull? then None
    else
      var v := Member(body.value, "dreamContent");
      if !Truthy(v) || !v.value.JString? then None else Some(v.value.s)
  }

  /** The minimal schema: truthy `title`, `interpretation`, `mood`, and an array `keywords`. */
  predicate SchemaValid(a: Json) {
    && !a.JNull?
    && Truthy(Member(a, "title"))
    && Truthy(Member(a, "interpretation"))
    && Truthy(Member(a, "mood"))
    && IsArray(Member(a, "keywords"))
  }

  /** Only a JSON object can pass the schema, and it must hold the four members. */
  lemma SchemaValidNeedsObject(a: Json)
    ensures SchemaValid(a) ==> a.JObject? && "title" in a.members && "interpretation" in a.members
                               && "mood" in a.members && "keywords" in a.members
                               && a.members["keywords"].JArray?
  {
  }

  /** The calls made so far form a prefix of: read the body, look up the user, call the completion service. */
  predicate InPipelineOrder(calls: seq<Call>) {
    && |calls| <= 3
    && (|calls| > 0 ==> calls[0] == ReadBody)
    && (|calls| > 1 ==> calls[1].GetUser?)
    && (|calls| > 2 ==> calls[2].Completion?)
  }

  function Reply(status: int, error: string, calls: seq<Call>): Handled {
    Handled(Response(status, ErrorEnvelope(error), true, true), calls)
  }

  /** The catch-all: a thrown error becomes a 500 carrying its message, or a generic one. */
  function Caught(message: string, calls: seq<Call>): Handled {
    Reply(500, if message != "" then message else InternalError, calls)
  }

  /** The handler for one request. */
  function Serve(req: Request, env: Env, out: Outcomes): (h: Handled)
    // every answer carries the CORS headers and one of four statuses
    ensures h.response.corsHeaders
    ensures h.response.status in {200, 400, 401, 500}
    ensures InPipelineOrder(h.calls)
    // preflight comes first, before any other check
    ensures req.httpMethod == "OPTIONS" ==> h.response == Preflight && h.calls == []
    ensures req.httpMethod != "OPTIONS" ==> h.response.jsonContentType && h.response.body != Text("ok")
    // configuration is checked before the body is read
    ensures req.httpMethod != "OPTIONS" && !EnvComplete(env) ==> h.response.status == 500 && h.calls == []
    ensures req.httpMethod != "OPTIONS" && !env.openAiKey ==> h.response.body == ErrorEnvelope(OpenAiKeyError)
    ensures req.httpMethod != "OPTIONS" && env.openAiKey && !EnvComplete(env)
            ==> h.response.body == ErrorEnvelope(SupabaseEnvError)
    // a body that is not JSON is a 500 from the catch-all, not a 400
    ensures req.httpMethod != "OPTIONS" && EnvComplete(env) && out.body.BodyUnparsable?
            ==> && h.response.status == 500 && h.calls == [ReadBody]
                && h.response.body == ErrorEnvelope(if out.body.message != "" then out.body.message else InternalError)
    // a body that is the literal `null` fails destructuring, also in the catch-all
    ensures req.httpMethod != "OPTIONS" && EnvComplete(env) && out.body == BodyParsed(JNull)
            ==> h.response == Reply(500, NullBodyTypeError, []).response && h.calls == [ReadBody]
    // the body gate runs before the Authorization check
    ensures h.response.status == 400 <==>
              req.httpMethod != "OPTIONS" && EnvComplete(env) && out.body.BodyParsed? && !out.body.value.JNull?
              && AcceptedContent(out.body).None?
    ensures h.response.status == 400 ==> h.response.body == ErrorEnvelope(DreamContentError) && h.calls == [ReadBody]
    // authentication
    ensures h.response == Reply(401, MissingHeaderError, []).response <==>
              req.httpMethod != "OPTIONS" && EnvComplete(env) && AcceptedContent(out.body).Some? && !HasHeader(req)
    ensures h.response == Reply(401, InvalidTokenError, []).response <==>
              req.httpMethod != "OPTIONS" && EnvComplete(env) && AcceptedContent(out.body).Some? && HasHeader(req)
              && !out.user.Resolved?
    ensures h.response.status == 401 ==> |h.calls| < 3
    ensures h.response == Reply(401, MissingHeaderError, []).response ==> h.calls == [ReadBody]
    ensures req.httpMethod != "OPTIONS" && EnvComplete(env) && AcceptedContent(out.body).Some? && HasHeader(req)
            ==> |h.calls| >= 2
    ensures |h.calls| > 1 ==> HasHeader(req) && h.calls[1] == GetUser(BearerToken(req.authorization.value))
    // the completion service is called exactly when every earlier check passed, with the dream text
    ensures |h.calls| == 3 <==>
              req.httpMethod != "OPTIONS" && EnvComplete(env) && AcceptedContent(out.body).Some?
              && HasHeader(req) && out.user.Resolved?
    ensures |h.calls| == 3 ==> h.calls[2] == Completion(AcceptedContent(out.body).value)
    // upstream failures
    ensures |h.calls| == 3 && out.upstream.NotOk? ==>
              h.response.status == 500
              && h.response.body == ErrorEnvelope(UpstreamErrorPrefix +
                   if out.upstream.errorMessage.Some? && out.upstream.errorMessage.value != ""
                   then out.upstream.errorMessage.value else UnknownUpstreamError)
    ensures |h.calls| == 3 && out.upstream.FetchFailed? ==>
              h.response.status == 500
              && h.response.body == ErrorEnvelope(
                   if out.upstream.message != "" then out.upstream.message else InternalError)
    ensures |h.calls| == 3 && out.upstream == Completed(None) ==>
              h.response == Reply(500, InvalidJsonError, []).response
    ensures |h.calls| == 3 && out.upstream.Completed? && out.upstream.parsed.Some?
            && !out.upstream.parsed.value.JNull? && !SchemaValid(out.upstream.parsed.value)
            ==> h.response == Reply(500, MissingFieldsError, []).response
    ensures |h.calls| == 3 && out.upstream == Completed(Some(JNull)) ==>
              h.response == Reply(500, NullAnalysisTypeError, []).response
    // success returns the parsed completion unchanged, extra members included
    ensures req.httpMethod != "OPTIONS" && h.response.status == 200 <==>
              |h.calls| == 3 && out.upstream.Completed? && out.upstream.parsed.Some?
              && SchemaValid(out.upstream.parsed.value)
    ensures req.httpMethod != "OPTIONS" && h.response.status == 200 ==>
              h.response.body == Analysis(out.upstream.parsed.value)
  {
    if req.httpMethod == "OPTIONS" then Handled(Preflight, [])
    else if !env.openAiKey then Caught(OpenAiKeyError, [])
    else if !env.supabaseUrl || !env.serviceRoleKey then Caught(SupabaseEnvError, [])
    else ValidateBody(req, out)
  }

  /** `const { dreamContent } = await req.json()` and the 400 gate. */
  function ValidateBody(req: Request, out: Outcomes): Handled {
    match out.body
    case BodyUnparsable(m) => Caught(m, [ReadBody])
    case BodyParsed(v) =>
      if v.JNull? then Caught(NullBodyTypeError, [ReadBody])
      else
        var c := AcceptedContent(out.body);
        if c.None? then Reply(400, DreamContentError, [ReadBody])
        else Authenticate(req, out, c.value)
  }

  /** The Authorization header and the identity lookup. */
  function Authenticate(req: Request, out: Outcomes, content: string): Handled {
    if !HasHeader(req) then Reply(401, MissingHeaderError, [ReadBody])
    else
      var token := BearerToken(req.authorization.value);
      if !out.user.Resolved? then Reply(401, InvalidTokenError, [ReadBody, GetUser(token)])
      else Invoke(out, [ReadBody, GetUser(token), Completion(content)])
  }

  /** The completion call and its failure modes. */
  function Invoke(out: Outcomes, calls: seq<Call>): Handled {
    match out.upstream
    case FetchFailed(m) => Caught(m, calls)
    case NotOk(m) =>
      Caught(UpstreamErrorPrefix + if m.Some? && m.value != "" then m.value else UnknownUpstreamError, calls)
    case Completed(parsed) => Normalize(parsed, calls)
  }

  /** The parse and schema check of the completion's content. */
  function Normalize(parsed: Option<Json>, calls: seq<Call>): Handled {
    match parsed
    case None => Caught(InvalidJsonError, calls)
    case Some(a) =>
      if a.JNull? then Caught(NullAnalysisTypeError, calls)
      else if !SchemaValid(a) then Caught(MissingFieldsError, calls)
      else Handled(Response(200, Analysis(a), true, true), calls)
  }
}

=== FILE: database.dfy ===
/**
 * The client's data layer (lib/database.ts): building the row `createDream`
 * inserts, `updateDream` as a partial field update, the error mapping of
 * `analyzeDream`, and `createAndAnalyzeDream`, which stores a dream first and
 * then tries to attach its analysis, keeping the unanalysed dream on failure.
 *
 * The `dreams` table is a map from id to row. The backend's answers (the
 * signed-in user, the clock, the insert, the session, the analysis service,
 * the update) are inputs.
 */
module Database {
  import opened Wrappers
  import opened JsStrings
  import opened DreamTypes
  import AnalyzeDreamFunction

  const NotAuthenticated := "User not authenticated"
  const AnalyzeFailed := "Failed to analyze dream"
  const CreateFailedPrefix := "Failed to create dream: "
  const UpdateFailedPrefix := "Failed to update dream: "
  /** The database's answer when `.single()` finds no row to return. */
  const NoSingleRow := "JSON object requested, multiple (or no) rows returned"
  /** The database's answer when an insert reuses an existing primary key. */
  const DuplicateKey := "duplicate key value violates unique constraint"

  /** The insert's answer: an error message, or the id and creation time the database assigned. */
  datatype InsertReply = InsertRejected(message: string) | InsertAccepted(id: string, createdAt: string)

  /**
   * The analysis service's answer as `analyzeDream` sees it: the request throws,
   * a non-success status with the body's `error` field (if any), or an analysis.
   */
  datatype AnalysisReply =
    | RequestFailed(message: string)
    | Rejected(error: Option<string>)
    | Analysed(analysis: DreamAnalysis)

  /** The backend's answers during one create-and-analyze round. */
  datatype Backend = Backend(
    user: Option<string>,         // `auth.getUser()`: the signed-in user's id
    now: string,                  // `new Date().toISOString()`
    insert: InsertReply,
    session: Option<string>,      // `auth.getSession()`: the access token
    analysis: AnalysisReply,
    updateError: Option<string>)  // the update's error message, if it fails

  type Table = map<string, Dream>

  /** `new Date().toISOString().split('T')[0]`: the date part of an ISO timestamp. */
  function DatePart(iso: string): (d: string)
    ensures |d| <= |iso| && d == iso[..|d|] && !Includes(d, "T")
    ensures !Includes(iso, "T") ==> d == iso
    ensures Includes(iso, "T") ==> MatchesAt(iso, "T", |d|)
  {
    BeforeFirst(iso, "T")
  }

  /** The date part of a well-formed timestamp is everything before its `T`. */
  lemma DatePartOfTimestamp(date: string, time: string)
    requires !Includes(date, "T")
    ensures DatePart(date + "T" + time) == date
  {
    var s := date + "T" + time;
    assert MatchesAt(s, "T", |date|) by { assert s[|date|..|date| + 1] == "T"; }
    var k := IndexOf(s, "T");
    assert k <= |date|;
    if k < |date| {
      assert s[k..k + 1] == date[k..k + 1];
      assert MatchesAt(date, "T", k);
      IncludesIff(date, "T", k);
    }
    assert s[..|date|] == date;
  }

  /** The row `createDream` inserts, completed with the id and timestamp the database assigns. */
  function NewDreamRecord(input: CreateDreamInput, userId: string, now: string, id: string, createdAt: string): (d: Dream)
    ensures d.id == id && d.userId == userId && d.createdAt == createdAt
    ensures d.content == Trim(input.content)
    ensures input.dreamDate.Some? && input.dreamDate.value != "" ==> d.dreamDate == input.dreamDate.value
    ensures input.dreamDate.None? || input.dreamDate.value == "" ==> d.dreamDate == DatePart(now)
    ensures d.isLucid <==> input.isLucid == Some(true)
    ensures d.title.None? && d.interpretation.None? && d.mood.None? && d.keywords.None?
  {
    Dream(
      id := id,
      userId := userId,
      title := None,
      content := Trim(input.content),
      interpretation := None,
      mood := None,
      keywords := None,
      isLucid := input.isLucid.GetOr(false),
      dreamDate := if input.dreamDate.Some? && input.dreamDate.value != "" then input.dreamDate.value
                   else DatePart(now),
      createdAt := createdAt)
  }

  /** `createDream`: what it returns or throws; on success the row is new to the table. */
  function CreateOutcome(rows: Table, input: CreateDreamInput, b: Backend): (r: Result<Dream, string>)
    ensures b.user.None? ==> r == Failure(NotAuthenticated)
    ensures b.user.Some? && b.insert.InsertRejected? ==> r == Failure(CreateFailedPrefix + b.insert.message)
    ensures r.Success? <==> b.user.Some? && b.insert.InsertAccepted? && b.insert.id !in rows
    ensures r.Success? ==>
              r.value == NewDreamRecord(input, b.user.value, b.now, b.insert.id, b.insert.createdAt)
  {
    if b.user.None? then Failure(NotAuthenticated)
    else match b.insert
      case InsertRejected(m) => Failure(CreateFailedPrefix + m)
      case InsertAccepted(id, createdAt) =>
        if id in rows then Failure(CreateFailedPrefix + DuplicateKey)
        else Success(NewDreamRecord(input, b.user.value, b.now, id, createdAt))
  }

  /** The dream with the fields present in `u` replaced and every other field kept. */
  function ApplyUpdate(d: Dream, u: UpdateDreamInput): (r: Dream)
    ensures r.id == d.id && r.userId == d.userId && r.createdAt == d.createdAt
    ensures r.content == u.content.GetOr(d.content)
    ensures r.title == (if u.title.Some? then u.title else d.title)
    ensures r.interpretation == (if u.interpretation.Some? then u.interpretation else d.interpretation)
    ensures r.mood == (if u.mood.Some? then u.mood else d.mood)
    ensures r.keywords == (if u.keywords.Some? then u.keywords else d.keywords)
    ensures r.isLucid == u.isLucid.GetOr(d.isLucid)
    ensures r.dreamDate == u.dreamDate.GetOr(d.dreamDate)
  {
    d.(content := u.content.GetOr(d.content),
       title := if u.title.Some? then u.title else d.title,
       interpretation := if u.interpretation.Some? then u.interpretation else d.interpretation,
       mood := if u.mood.Some? then u.mood else d.mood,
       keywords := if u.keywords.Some? then u.keywords else d.keywords,
       isLucid := u.isLucid.GetOr(d.isLucid),
       dreamDate := u.dreamDate.GetOr(d.dreamDate))
  }

  /** An empty update changes nothing. */
  lemma EmptyUpdateIsIdentity(d: Dream)
    ensures ApplyUpdate(d, UpdateDreamInput(None, None, None, None, None, None, None)) == d
  {
  }

  /** `updateDream`: the updated row, or the error it throws. */
  function UpdateOutcome(rows: Table, id: string, u: UpdateDreamInput, updateError: Option<string>)
    : (r: Result<Dream, string>)
    ensures updateError.Some? ==> r == Failure(UpdateFailedPrefix + updateError.value)
    ensures r.Success? <==> updateError.None? && id in rows
    ensures r.Success? ==> r.value == ApplyUpdate(rows[id], u)
  {
    if updateError.Some? then Failure(UpdateFailedPrefix + updateError.value)
    else if id !in rows then Failure(UpdateFailedPrefix + NoSingleRow)
    else Success(ApplyUpdate(rows[id], u))
  }

  /** The `Authorization` header `analyzeDream` sends. */
  function AuthorizationHeader(accessToken: string): string {
    AnalyzeDreamFunction.BearerPrefix + accessToken
  }

  /** The edge function resolves exactly the session token the client sends. */
  lemma SessionTokenReachesIdentityCheck(accessToken: string)
    ensures AnalyzeDreamFunction.BearerToken(AuthorizationHeader(accessToken)) == accessToken
  {
    AnalyzeDreamFunction.BearerTokenOfBearerHeader(accessToken);
  }

  /** `analyzeDream`: the analysis, or the error message it throws. */
  function AnalyzeOutcome(session: Option<string>, reply: AnalysisReply): (r: Result<DreamAnalysis, string>)
    ensures session.None? ==> r == Failure(NotAuthenticated)
    ensures r.Success? <==> session.Some? && reply.Analysed?
    ensures r.Success? ==> r.value == reply.analysis
    ensures session.Some? && reply.Rejected? ==>
              r == Failure(if reply.error.Some? && reply.error.value != "" then reply.error.value else AnalyzeFailed)
    ensures session.Some? && reply.RequestFailed? ==> r == Failure(reply.message)
  {
    if session.None? then Failure(NotAuthenticated)
    else match reply
      case RequestFailed(m) => Failure(m)
      case Rejected(e) => Failure(if e.Some? && e.value != "" then e.value else AnalyzeFailed)
      case Analysed(a) => Success(a)
  }

  /** The update `createAndAnalyzeDream` sends: exactly the four analysis fields. */
  function AnalysisUpdate(a: DreamAnalysis): UpdateDreamInput {
    UpdateDreamInput(
      content := None, title := Some(a.title), interpretation := Some(a.interpretation),
      mood := Some(a.mood), keywords := Some(a.keywords), isLucid := None, dreamDate := None)
  }

  /** One round of `createAndAnalyzeDream`: the table after it, its result, and the text sent for analysis. */
  datatype Round = Round(rows: Table, result: Result<Dream, string>, analysed: Option<string>)

  function CreateAndAnalyze(rows: Table, input: CreateDreamInput, b: Backend): (o: Round)
    ensures o.result.Success? <==> CreateOutcome(rows, input, b).Success?
  {
    var created := CreateOutcome(rows, input, b);
    if created.Failure? then Round(rows, created, None)
    else
      var d := created.value;
      var stored := rows[d.id := d];
      var analysis := AnalyzeOutcome(b.session, b.analysis);
      if analysis.Failure? then Round(stored, Success(d), Some(d.content))
      else
        var updated := UpdateOutcome(stored, d.id, AnalysisUpdate(analysis.value), b.updateError);
        if updated.Failure? then Round(stored, Success(d), Some(d.content))
        else Round(stored[d.id := updated.value], updated, Some(d.content))
  }

  /** A failed create propagates its error and stores nothing. */
  lemma CreateFailureStoresNothing(rows: Table, input: CreateDreamInput, b: Backend)
    requires CreateOutcome(rows, input, b).Failure?
    ensures CreateAndAnalyze(rows, input, b) == Round(rows, CreateOutcome(rows, input, b), None)
  {
  }

  /** Once created, the dream is stored, and what is analysed is its stored (trimmed) content. */
  lemma CreatedDreamIsStoredAndAnalysed(rows: Table, input: CreateDreamInput, b: Backend)
    requires CreateOutcome(rows, input, b).Success?
    ensures var d := CreateOutcome(rows, input, b).value;
            var o := CreateAndAnalyze(rows, input, b);
            && o.analysed == Some(d.content) && d.content == Trim(input.content)
            && d.id !in rows
            && o.rows == rows[d.id := o.result.value]
  {
  }

  /** If analysis or the update fails, the saved, unanalysed dream is returned and stays stored. */
  lemma AnalysisFailureKeepsSavedDream(rows: Table, input: CreateDreamInput, b: Backend)
    requires CreateOutcome(rows, input, b).Success?
    requires AnalyzeOutcome(b.session, b.analysis).Failure? || b.updateError.Some?
    ensures var d := CreateOutcome(rows, input, b).value;
            var o := CreateAndAnalyze(rows, input, b);
            o.result == Success(d) && o.rows == rows[d.id := d]
            && d.title.None? && d.interpretation.None? && d.mood.None? && d.keywords.None?
  {
  }

  /** On success exactly title, interpretation, mood and keywords are copied onto the stored dream. */
  lemma AnalysisCopiesExactlyFourFields(rows: Table, input: CreateDreamInput, b: Backend)
    requires CreateOutcome(rows, input, b).Success?
    requires AnalyzeOutcome(b.session, b.analysis).Success? && b.updateError.None?
    ensures var d := CreateOutcome(rows, input, b).value;
            var a := b.analysis.analysis;
            var o := CreateAndAnalyze(rows, input, b);
            && o.result == Success(d.(title := Some(a.title), interpretation := Some(a.interpretation),
                                      mood := Some(a.mood), keywords := Some(a.keywords)))
            && o.rows == rows[d.id := o.result.value]
  {
  }

  /** A round never changes or removes a row that existed before it. */
  lemma RoundKeepsExistingRows(rows: Table, input: CreateDreamInput, b: Backend)
    ensures var o := CreateAndAnalyze(rows, input, b);
            forall id :: id in rows ==> id in o.rows && o.rows[id] == rows[id]
  {
  }

  /** The `dreams` table as the client changes it. */
  class DreamStore {
    var rows: Table

    constructor()
      ensures rows == map[]
    {
      rows := map[];
    }

    /** `createDream`. */
    method CreateDream(input: CreateDreamInput, b: Backend) returns (r: Result<Dream, string>)
      modifies this
      ensures r == CreateOutcome(old(rows), input, b)
      ensures rows == if r.Success? then old(rows)[r.value.id := r.value] else old(rows)
    {
      r := CreateOutcome(rows, input, b);
      if r.Success? {
        rows := rows[r.value.id := r.value];
      }
    }

    /** `updateDream`. */
    method UpdateDream(id: string, updates: UpdateDreamInput, updateError: Option<string>)
      returns (r: Result<Dream, string>)
      modifies this
      ensures r == UpdateOutcome(old(rows), id, updates, updateError)
      ensures rows == if r.Success? then old(rows)[id := r.value] else old(rows)
    {
      r := UpdateOutcome(rows, id, updates, updateError);
      if r.Success? {
        rows := rows[id := r.value];
      }
    }

    /** `createAndAnalyzeDream`: insert, analyse, update; a failed analysis keeps the saved dream. */
    method CreateAndAnalyzeDream(input: CreateDreamInput, b: Backend) returns (r: Result<Dream, string>)
      modifies this
      ensures rows == CreateAndAnalyze(old(rows), input, b).rows
      ensures r == CreateAndAnalyze(old(rows), input, b).result
    {
      var created := CreateDream(input, b);
      if created.Failure? {
        return created;
      }
      var dream := created.value;
      var analysis := AnalyzeOutcome(b.session, b.analysis);
      if analysis.Failure? {
        return Success(dream);
      }
      var updated := UpdateDream(dream.id, AnalysisUpdate(analysis.value), b.updateError);
      if updated.Failure? {
        return Success(dream);
      }
      return updated;
    }
  }
}

=== FILE: device_storage.dfy ===
/** The device's persistent key-value store (AsyncStorage) as far as the onboarding flag uses it. */
module DeviceStorage {
  import opened Wrappers

  const WelcomeFlagKey := "hasSeenWelcome"

  /** `AsyncStorage.getItem(key)`: the stored string, or `null`. */
  function Lookup(items: map<string, string>, key: string): (r: Option<string>)
    ensures r.Some? <==> key in items
    ensures r.Some? ==> r.value == items[key]
  {
    if key in items then Some(items[key]) else None
  }

  class KeyValueStore {
    var items: map<string, string>

    constructor()
      ensures items == map[]
    {
      items := map[];
    }

    /** `AsyncStorage.setItem(key, value)`; `fails` is the storage error that makes it throw. */
    method SetItem(key: string, value: string, fails: bool) returns (ok: bool)
      modifies this
      ensures ok == !fails
      ensures items == if ok then old(items)[key := value] else old(items)
    {
      ok := !fails;
      if ok {
        items := items[key := value];
      }
    }
  }
}

=== FILE: dream_card.dfy ===
/**
 * A dream in the journal list (components/DreamCard.tsx): a lucid or ordinary
 * icon, a mood badge and a title when present, the interpretation (or, failing
 * that, the dream text) cut to 120 characters, and at most three keyword chips
 * with a "+n" count for the rest.
 */
module DreamCard {
  import opened Wrappers
  import opened JsStrings
  import opened DreamTypes
  import MoodBadge

  const BodyLength := 120
  const MaxChips := 3
  const Ellipsis := "..."

  /** `truncateText`: the text if it fits, else its first `maxLength` characters trimmed, then "...". */
  function TruncateText(text: string, maxLength: nat): (r: string)
    ensures |text| <= maxLength ==> r == text
    ensures |text| > maxLength ==>
              && |r| >= |Ellipsis| && r[|r| - |Ellipsis|..] == Ellipsis
              && r[..|r| - |Ellipsis|] == Trim(text[..maxLength])
    ensures |r| <= maxLength + |Ellipsis|
  {
    if |text| <= maxLength then text
    else
      var head := Trim(text[..maxLength]);
      assert (head + Ellipsis)[..|head|] == head;
      head + Ellipsis
  }

  /** A present, non-empty string: what `{value && ...}` renders. */
  predicate Shown(value: Option<string>) {
    value.Some? && value.value != ""
  }

  /** What the card renders. */
  datatype CardView = CardView(
    icon: string,
    iconColor: string,
    moodBadge: Option<MoodBadge.Badge>,
    title: Option<string>,
    body: string,
    chips: seq<string>,
    moreCount: Option<nat>)   // the "+n" after the chips

  function Card(d: Dream): (v: CardView)
    ensures d.isLucid ==> v.icon == "sparkles" && v.iconColor == "#F59E0B"
    ensures !d.isLucid ==> v.icon == "moon-outline" && v.iconColor == "#8B5CF6"
    ensures v.moodBadge.Some? <==> Shown(d.mood)
    ensures v.moodBadge.Some? ==> v.moodBadge.value == MoodBadge.Render(d.mood.value, None)
    ensures v.title.Some? <==> Shown(d.title)
    ensures v.title.Some? ==> v.title == d.title
    ensures Shown(d.interpretation) ==> v.body == TruncateText(d.interpretation.value, BodyLength)
    ensures !Shown(d.interpretation) ==> v.body == TruncateText(d.content, BodyLength)
    ensures |v.body| <= BodyLength + |Ellipsis|
    ensures (v.chips, v.moreCount) == KeywordChips(d.keywords)
  {
    CardView(
      icon := if d.isLucid then "sparkles" else "moon-outline",
      iconColor := if d.isLucid then "#F59E0B" else "#8B5CF6",
      moodBadge := if Shown(d.mood) then Some(MoodBadge.Render(d.mood.value, None)) else None,
      title := if Shown(d.title) then d.title else None,
      body := TruncateText(if Shown(d.interpretation) then d.interpretation.value else d.content, BodyLength),
      chips := KeywordChips(d.keywords).0,
      moreCount := KeywordChips(d.keywords).1)
  }

  /** The keyword row: the chips shown and the overflow count; no row for a missing or empty list. */
  function KeywordChips(keywords: Option<seq<string>>): (row: (seq<string>, Option<nat>))
    ensures keywords.None? || keywords.value == [] ==> row == ([], None)
    ensures |row.0| <= MaxChips
    ensures keywords.Some? ==> |row.0| <= |keywords.value| && row.0 == keywords.value[..|row.0|]
    ensures row.1.Some? <==> keywords.Some? && |keywords.value| > MaxChips
    ensures row.1.Some? ==> row.1.value == |keywords.value| - MaxChips
    ensures keywords.Some? ==> |row.0| + row.1.GetOr(0) == |keywords.value|
  {
    if keywords.None? || keywords.value == [] then ([], None)
    else
      var k := keywords.value;
      if |k| > MaxChips then (k[..MaxChips], Some(|k| - MaxChips)) else (k, None)
  }

  /** Every keyword is either a chip, in its original position, or counted in "+n". */
  lemma ChipsPartitionKeywords(keywords: seq<string>)
    ensures var (chips, more) := KeywordChips(Some(keywords));
            chips + keywords[|chips|..] == keywords && more.GetOr(0) == |keywords[|chips|..]|
  {
    var (chips, more) := KeywordChips(Some(keywords));
    assert keywords[..|chips|] == chips;
  }
}

=== FILE: dream_types.dfy ===
/** The record shapes of the dream journal (lib/types.ts). `null` fields are `Option`s. */
module DreamTypes {
  import opened Wrappers

  /** A row of the `dreams` table. */
  datatype Dream = Dream(
    id: string,
    userId: string,
    title: Option<string>,
    content: string,
    interpretation: Option<string>,
    mood: Option<string>,
    keywords: Option<seq<string>>,
    isLucid: bool,
    dreamDate: string,
    createdAt: string)

  /** What the analysis service returns for a dream. */
  datatype DreamAnalysis = DreamAnalysis(
    title: string,
    interpretation: string,
    mood: string,
    keywords: seq<string>)

  /** The fields a client supplies to create a dream; absent optional fields are `None`. */
  datatype CreateDreamInput = CreateDreamInput(
    content: string,
    dreamDate: Option<string>,
    isLucid: Option<bool>)

  /** A partial update: only the fields that are `Some` are written. */
  datatype UpdateDreamInput = UpdateDreamInput(
    content: Option<string>,
    title: Option<string>,
    interpretation: Option<string>,
    mood: Option<string>,
    keywords: Option<seq<string>>,
    isLucid: Option<bool>,
    dreamDate: Option<string>)
}

=== FILE: error_handler.dfy ===
/**
 * Error-message classification (lib/errorHandler.ts): an arbitrary thrown value
 * is turned into a message, and each `handle*Error` maps that message to one of
 * a fixed set of user-facing texts by the first rule whose needle the message
 * contains (case-sensitive), or to a fallback.
 */
module ErrorHandler {
  import opened Wrappers
  import opened JsStrings

  /**
   * A thrown value, by the type tests `getErrorMessage` makes: a string, an
   * `Error` instance (with its optional stack), some other object with a
   * `message` property (`messageText` is `String(error.message)`), or anything else.
   */
  datatype Thrown =
    | ThrownString(s: string)
    | ThrownError(message: string, stack: Option<string>)
    | ThrownWithMessage(messageText: string)
    | ThrownOther

  const UnexpectedMessage := "An unexpected error occurred. Please try again."

  /** `getErrorMessage`: the message a thrown value carries, or the fixed fallback. */
  function GetErrorMessage(e: Thrown): (m: string)
    ensures e.ThrownString? ==> m == e.s
    ensures e.ThrownError? ==> m == e.message
    ensures e.ThrownWithMessage? ==> m == e.messageText
    ensures e.ThrownOther? ==> m == UnexpectedMessage
  {
    match e
    case ThrownString(s) => s
    case ThrownError(message, _) => message
    case ThrownWithMessage(text) => text
    case ThrownOther => UnexpectedMessage
  }

  /** `logError`: the console line(s), given the timestamp `new Date().toISOString()`. */
  function LogLines(timestamp: string, e: Thrown, context: Option<string>): (lines: seq<string>)
    ensures 1 <= |lines| <= 2
    ensures context.Some? && context.value != "" ==>
              lines[0] == "[" + timestamp + "] " + context.value + ": " + GetErrorMessage(e)
    ensures context.None? || context.value == "" ==>
              lines[0] == "[" + timestamp + "] " + GetErrorMessage(e)
    ensures |lines| == 2 <==> e.ThrownError? && e.stack.Some? && e.stack.value != ""
    ensures |lines| == 2 ==> lines[1] == "Stack trace: " + e.stack.value
  {
    var prefix := if context.Some? && context.value != "" then " " + context.value + ":" else "";
    var line := "[" + timestamp + "]" + prefix + " " + GetErrorMessage(e);
    if e.ThrownError? && e.stack.Some? && e.stack.value != "" then [line, "Stack trace: " + e.stack.value]
    else [line]
  }

  /** One classification rule: if the message includes `needle`, answer `reply`. */
  datatype Rule = Rule(needle: string, reply: string)

  /** The index of the first rule at or after `from` whose needle `message` includes, or `|rules|`. */
  function FirstMatchFrom(message: string, rules: seq<Rule>, from: nat): (k: nat)
    requires from <= |rules|
    ensures from <= k <= |rules|
    ensures k < |rules| ==> Includes(message, rules[k].needle)
    ensures forall j :: from <= j < k ==> !Includes(message, rules[j].needle)
    decreases |rules| - from
  {
    if from == |rules| then from
    else if Includes(message, rules[from].needle) then from
    else FirstMatchFrom(message, rules, from + 1)
  }

  /** The reply of the first matching rule, or `fallback` when none matches. */
  function Classify(message: string, rules: seq<Rule>, fallback: string): (r: string)
  {
    var k := FirstMatchFrom(message, rules, 0);
    if k < |rules| then rules[k].reply else fallback
  }

  /** Classification never echoes the message: the answer is a rule's reply or the fallback. */
  lemma ClassifyIsFixedText(message: string, rules: seq<Rule>, fallback: string)
    ensures Classify(message, rules, fallback) == fallback
            || exists k :: 0 <= k < |rules| && Classify(message, rules, fallback) == rules[k].reply
  {
    var k := FirstMatchFrom(message, rules, 0);
    if k < |rules| {
      assert Classify(message, rules, fallback) == rules[k].reply;
    }
  }

  /** Rule `k` answers exactly when its needle matches and no earlier needle does. */
  lemma ClassifyPicksFirstMatch(message: string, rules: seq<Rule>, fallback: string, k: nat)
    requires k < |rules|
    requires Includes(message, rules[k].needle)
    requires forall j :: 0 <= j < k ==> !Includes(message, rules[j].needle)
    ensures Classify(message, rules, fallback) == rules[k].reply
  {
    var i := FirstMatchFrom(message, rules, 0);
    assert !(i < k);
    assert i == k;
  }

  const NetworkReply := "Network error. Please check your connection and try again."

  const AuthRules := [
    Rule("Invalid login credentials", "Invalid email or password. Please try again."),
    Rule("Email not confirmed", "Please check your email and confirm your account."),
    Rule("Network", NetworkReply)
  ]
  const AuthFallback := "Authentication failed. Please try again."

  const DatabaseRules := [
    Rule("violates row-level security", "You do not have permission to perform this action."),
    Rule("duplicate key", "This entry already exists."),
    Rule("Network", NetworkReply)
  ]
  const DatabaseFallback := "Database error. Please try again."

  const RateLimitReply := "Too many requests. Please wait a moment and try again."
  const SessionExpiredReply := "Session expired. Please log in again."
  const TimeoutReply := "Request timed out. Please try again."
  const AIFallback := "AI analysis failed. Your dream was saved, but analysis could not be completed."
  const AIRules := [
    Rule("rate limit", RateLimitReply),
    Rule("Unauthorized", SessionExpiredReply),
    Rule("timeout", TimeoutReply),
    Rule("Network", NetworkReply)
  ]

  /** `handleAuthError`. */
  function HandleAuthError(e: Thrown): (r: string)
    ensures r in {AuthRules[0].reply, AuthRules[1].reply, NetworkReply, AuthFallback}
    ensures var m := GetErrorMessage(e);
      && (r == AuthRules[0].reply <==> Includes(m, "Invalid login credentials"))
      && (r == AuthRules[1].reply <==> !Includes(m, "Invalid login credentials") && Includes(m, "Email not confirmed"))
      && (r == NetworkReply <==>
            !Includes(m, "Invalid login credentials") && !Includes(m, "Email not confirmed") && Includes(m, "Network"))
    ensures r == AuthFallback <==> forall j :: 0 <= j < |AuthRules| ==> !Includes(GetErrorMessage(e), AuthRules[j].needle)
  {
    var m := GetErrorMessage(e);
    var k := FirstMatchFrom(m, AuthRules, 0);
    assert k > 0 ==> !Includes(m, AuthRules[0].needle);
    assert k > 1 ==> !Includes(m, AuthRules[1].needle);
    assert k > 2 ==> !Includes(m, AuthRules[2].needle);
    Classify(m, AuthRules, AuthFallback)
  }

  /** `handleDatabaseError`. */
  function HandleDatabaseError(e: Thrown): (r: string)
    ensures r in {DatabaseRules[0].reply, DatabaseRules[1].reply, NetworkReply, DatabaseFallback}
    ensures var m := GetErrorMessage(e);
      && (r == DatabaseRules[0].reply <==> Includes(m, "violates row-level security"))
      && (r == DatabaseRules[1].reply <==> !Includes(m, "violates row-level security") && Includes(m, "duplicate key"))
      && (r == NetworkReply <==>
            !Includes(m, "violates row-level security") && !Includes(m, "duplicate key") && Includes(m, "Network"))
    ensures r == DatabaseFallback <==>
              forall j :: 0 <= j < |DatabaseRules| ==> !Includes(GetErrorMessage(e), DatabaseRules[j].needle)
  {
    var m := GetErrorMessage(e);
    var k := FirstMatchFrom(m, DatabaseRules, 0);
    assert k > 0 ==> !Includes(m, DatabaseRules[0].needle);
    assert k > 1 ==> !Includes(m, DatabaseRules[1].needle);
    assert k > 2 ==> !Includes(m, DatabaseRules[2].needle);
    Classify(m, DatabaseRules, DatabaseFallback)
  }

  /** `handleAIError`: rate limit, then Unauthorized, then timeout, then Network, then the fallback. */
  function HandleAIError(e: Thrown): (r: string)
    ensures r in {RateLimitReply, SessionExpiredReply, TimeoutReply, NetworkReply, AIFallback}
    ensures var m := GetErrorMessage(e);
      && (r == RateLimitReply <==> Includes(m, "rate limit"))
      && (r == SessionExpiredReply <==> !Includes(m, "rate limit") && Includes(m, "Unauthorized"))
      && (r == TimeoutReply <==>
            !Includes(m, "rate limit") && !Includes(m, "Unauthorized") && Includes(m, "timeout"))
      && (r == NetworkReply <==>
            !Includes(m, "rate limit") && !Includes(m, "Unauthorized") && !Includes(m, "timeout")
            && Includes(m, "Network"))
  {
    var m := GetErrorMessage(e);
    var k := FirstMatchFrom(m, AIRules, 0);
    assert k > 0 ==> !Includes(m, AIRules[0].needle);
    assert k > 1 ==> !Includes(m, AIRules[1].needle);
    assert k > 2 ==> !Includes(m, AIRules[2].needle);
    assert k > 3 ==> !Includes(m, AIRules[3].needle);
    Classify(m, AIRules, AIFallback)
  }

  /** A message mentioning both a rate limit and the network is reported as a rate limit. */
  lemma RateLimitBeatsNetwork(e: Thrown)
    requires Includes(GetErrorMessage(e), "rate limit") && Includes(GetErrorMessage(e), "Network")
    ensures HandleAIError(e) == RateLimitReply
  {
  }

  /** Matching is case-sensitive: a lower-case "network" error gets the generic AI text. */
  lemma LowerCaseNetworkFallsThrough()
    ensures HandleAIError(ThrownError("network", None)) == AIFallback
    ensures HandleDatabaseError(ThrownString("network")) == DatabaseFallback
  {
    var m := "network";
    forall j | 0 <= j < |AIRules| ensures !Includes(m, AIRules[j].needle) {
      NotIncludedWithoutFirstChar(m, AIRules[j].needle);
    }
    forall j | 0 <= j < |DatabaseRules| ensures !Includes(m, DatabaseRules[j].needle) {
      NotIncludedWithoutFirstChar(m, DatabaseRules[j].needle);
    }
  }
}

=== FILE: js_strings.dfy ===
/**
 * The few ECMAScript string operations the application relies on:
 * `trim`, `includes`, `indexOf`, `replace` with a string pattern and `split(sep)[0]`.
 * Strings are sequences of Unicode code points.
 */
module JsStrings {

  /** ECMAScript WhiteSpace and LineTerminator code points: what `String.prototype.trim` removes. */
  predicate IsJsSpace(c: char) {
    var n := c as int;
    n == 0x09 || n == 0x0A || n == 0x0B || n == 0x0C || n == 0x0D || n == 0x20 || n == 0xA0
    || n == 0x1680 || (0x2000 <= n <= 0x200A) || n == 0x2028 || n == 0x2029 || n == 0x202F
    || n == 0x205F || n == 0x3000 || n == 0xFEFF
  }

  predicate AllSpace(s: string) {
    forall i :: 0 <= i < |s| ==> IsJsSpace(s[i])
  }

  /** The index of the first non-white-space character at or after `i`, or `|s|`. */
  function SpanStart(s: string, i: nat): (k: nat)
    requires i <= |s|
    ensures i <= k <= |s|
    ensures forall j :: i <= j < k ==> IsJsSpace(s[j])
    ensures k == |s| || !IsJsSpace(s[k])
    decreases |s| - i
  {
    if i < |s| && IsJsSpace(s[i]) then SpanStart(s, i + 1) else i
  }

  /** The index just past the last non-white-space character in `s[lo..j]`, or `lo`. */
  function SpanEnd(s: string, lo: nat, j: nat): (k: nat)
    requires lo <= j <= |s|
    ensures lo <= k <= j
    ensures forall m :: k <= m < j ==> IsJsSpace(s[m])
    ensures k == lo || !IsJsSpace(s[k - 1])
    decreases j
  {
    if j > lo && IsJsSpace(s[j - 1]) then SpanEnd(s, lo, j - 1) else j
  }

  /** `s.trim()`: drops the leading and trailing white space and nothing else. */
  function Trim(s: string): (r: string)
    ensures |r| <= |s|
    ensures r == [] <==> AllSpace(s)
    ensures r != [] ==> !IsJsSpace(r[0]) && !IsJsSpace(r[|r| - 1])
  {
    var a := SpanStart(s, 0);
    var b := SpanEnd(s, a, |s|);
    assert a < |s| ==> a < b;
    s[a..b]
  }

  /** `SpanStart` stops exactly at the first non-white-space index. */
  lemma SpanStartAt(s: string, i: nat, k: nat)
    requires i <= k <= |s|
    requires forall j :: i <= j < k ==> IsJsSpace(s[j])
    requires k == |s| || !IsJsSpace(s[k])
    ensures SpanStart(s, i) == k
  {
  }

  /** `SpanEnd` stops exactly past the last non-white-space index. */
  lemma SpanEndAt(s: string, lo: nat, j: nat, k: nat)
    requires lo <= k <= j <= |s|
    requires forall m :: k <= m < j ==> IsJsSpace(s[m])
    requires k == lo || !IsJsSpace(s[k - 1])
    ensures SpanEnd(s, lo, j) == k
  {
  }

  /**
   * Trimming characterised: white space around a text that neither starts nor
   * ends with white space is exactly what `trim` removes.
   */
  lemma {:induction false} TrimOfPadded(p: string, t: string, q: string)
    requires AllSpace(p) && AllSpace(q)
    requires t != [] ==> !IsJsSpace(t[0]) && !IsJsSpace(t[|t| - 1])
    ensures Trim(p + t + q) == t
  {
    var s := p + t + q;
    if t == [] {
      assert AllSpace(s) by {
        forall i | 0 <= i < |s| ensures IsJsSpace(s[i]) {
          if i < |p| { assert s[i] == p[i]; } else { assert s[i] == q[i - |p|]; }
        }
      }
    } else {
      forall j | 0 <= j < |p| ensures IsJsSpace(s[j]) { assert s[j] == p[j]; }
      assert s[|p|] == t[0];
      SpanStartAt(s, 0, |p|);
      forall m | |p| + |t| <= m < |s| ensures IsJsSpace(s[m]) { assert s[m] == q[m - |p| - |t|]; }
      assert s[|p| + |t| - 1] == t[|t| - 1];
      SpanEndAt(s, |p|, |s|, |p| + |t|);
      assert s[|p|..|p| + |t|] == t;
    }
  }

  /** Trimming an already trimmed string changes nothing. */
  lemma TrimIdempotent(s: string)
    ensures Trim(Trim(s)) == Trim(s)
  {
    var r := Trim(s);
    assert r == [] + r + [];
    TrimOfPadded([], r, []);
  }

  /** `sub` occurs in `s` starting at index `i`. */
  predicate MatchesAt(s: string, sub: string, i: int) {
    0 <= i && i + |sub| <= |s| && s[i..i + |sub|] == sub
  }

  /** `s.indexOf(sub, from)`: the first index at or after `from` where `sub` occurs, or -1. */
  function IndexOfFrom(s: string, sub: string, from: nat): (r: int)
    ensures r == -1 || (from <= r && MatchesAt(s, sub, r))
    ensures forall j :: from <= j && (r == -1 || j < r) ==> !MatchesAt(s, sub, j)
    decreases |s| - from
  {
    if from + |sub| > |s| then -1
    else if s[from..from + |sub|] == sub then from
    else IndexOfFrom(s, sub, from + 1)
  }

  function IndexOf(s: string, sub: string): int {
    IndexOfFrom(s, sub, 0)
  }

  /** `s.includes(sub)`: case-sensitive substring containment. */
  predicate Includes(s: string, sub: string) {
    IndexOf(s, sub) != -1
  }

  /** `includes` holds exactly when `sub` occurs at some index of `s`. */
  lemma IncludesIff(s: string, sub: string, i: int)
    ensures MatchesAt(s, sub, i) ==> Includes(s, sub)
    ensures Includes(s, sub) ==> MatchesAt(s, sub, IndexOf(s, sub))
  {
  }

  /** A needle whose first character the text lacks is not included. */
  lemma NotIncludedWithoutFirstChar(s: string, sub: string)
    ensures |sub| > 0 && (forall i :: 0 <= i < |s| ==> s[i] != sub[0]) ==> !Includes(s, sub)
  {
    var k := IndexOf(s, sub);
    if k != -1 && |sub| > 0 {
      assert s[k..k + |sub|][0] == s[k];
    }
  }

  /** `s.replace(pattern, replacement)` with a string pattern: only the first occurrence is replaced. */
  function ReplaceFirst(s: string, pattern: string, replacement: string): (r: string)
    ensures !Includes(s, pattern) ==> r == s
    ensures Includes(s, pattern) ==> |r| == |s| - |pattern| + |replacement|
    ensures Includes(s, pattern) ==>
              exists k :: && MatchesAt(s, pattern, k)
                          && (forall j :: 0 <= j < k ==> !MatchesAt(s, pattern, j))
                          && r == s[..k] + replacement + s[k + |pattern|..]
  {
    var k := IndexOf(s, pattern);
    if k == -1 then s else s[..k] + replacement + s[k + |pattern|..]
  }

  /** Replacing a pattern that `s` starts with removes exactly that prefix. */
  lemma ReplaceLeadingPattern(pattern: string, rest: string, replacement: string)
    ensures ReplaceFirst(pattern + rest, pattern, replacement) == replacement + rest
  {
    var s := pattern + rest;
    assert s[0..|pattern|] == pattern;
    assert IndexOfFrom(s, pattern, 0) == 0;
    assert s[..0] + replacement == replacement;
    assert s[|pattern|..] == rest;
  }

  /** `s.split(sep)[0]`: the text before the first occurrence of `sep`, or all of `s`. */
  function BeforeFirst(s: string, sep: string): (r: string)
    requires sep != []
    ensures |r| <= |s| && r == s[..|r|]
    ensures !Includes(s, sep) ==> r == s
    ensures !Includes(r, sep)
    ensures Includes(s, sep) ==> MatchesAt(s, sep, |r|)
    ensures forall j :: 0 <= j < |r| ==> !MatchesAt(s, sep, j)
  {
    var k := IndexOf(s, sep);
    var r := if k == -1 then s else s[..k];
    assert !Includes(r, sep) by {
      var j := IndexOf(r, sep);
      if j != -1 {
        assert MatchesAt(r, sep, j);
        assert r[j..j + |sep|] == s[j..j + |sep|];
        assert MatchesAt(s, sep, j);
      }
    }
    r
  }
}

=== FILE: json_value.dfy ===
/**
 * JSON values (RFC 8259) as JavaScript sees them after `JSON.parse`, with the
 * two JavaScript operations the application applies to them: a property read
 * (`v.key`, which yields `undefined` for a missing key) and truthiness (`!x`).
 */
module JsonValue {
  import opened Wrappers

  datatype Json =
    | JNull
    | JBool(b: bool)
    | JNumber(n: real)
    | JString(s: string)
    | JArray(items: seq<Json>)
    | JObject(members: map<string, Json>)

  /**
   * `v.key` for a value that is not `null` (reading a property of `null` throws).
   * Only an object has the JSON members the application asks for; `None` is `undefined`.
   */
  function Member(v: Json, key: string): (r: Option<Json>)
    requires !v.JNull?
    ensures r.Some? <==> v.JObject? && key in v.members
    ensures r.Some? ==> r.value == v.members[key]
  {
    match v
    case JObject(m) => if key in m then Some(m[key]) else None
    case _ => None
  }

  /** JavaScript truthiness of a property value: `undefined`, `null`, `false`, `0` and `""` are falsy. */
  predicate Truthy(v: Option<Json>) {
    match v
    case None => false
    case Some(JNull) => false
    case Some(JBool(b)) => b
    case Some(JNumber(n)) => n != 0.0
    case Some(JString(s)) => s != ""
    case Some(JArray(_)) => true
    case Some(JObject(_)) => true
  }

  /** `Array.isArray(v)`. */
  predicate IsArray(v: Option<Json>) {
    v.Some? && v.value.JArray?
  }
}

=== FILE: login_screen.dfy ===
/**
 * The sign-in screen (app/index.tsx): once authentication has settled, a
 * signed-in user is sent to the tabs if the onboarding flag is exactly "true" and
 * to the onboarding screen otherwise; the screen itself shows a spinner while
 * loading, nothing for a signed-in user, and the sign-in button otherwise.
 */
module LoginScreen {
  import opened Wrappers
  import opened Ui
  import DeviceStorage
  import Welcome

  const SignInFailedAlert := Alert("Sign In Failed", "Unable to sign in with Google. Please try again.")

  /** `AsyncStorage.getItem('hasSeenWelcome')`: the stored value or `null`, or a thrown read error. */
  datatype FlagRead = FlagValue(value: Option<string>) | ReadFailed

  /** The navigation `checkWelcomeStatus` requests, if any. */
  function Redirect(loading: bool, signedIn: bool, flag: FlagRead): (r: Option<Navigation>)
    ensures loading || !signedIn ==> r == None
    ensures r == Some(Replace(TabsPath)) <==> !loading && signedIn && flag == FlagValue(Some(Welcome.FlagValue))
    ensures r == Some(Replace(WelcomePath)) <==> !loading && signedIn && flag != FlagValue(Some(Welcome.FlagValue))
  {
    if loading || !signedIn then None
    else match flag
      case ReadFailed => Some(Replace(WelcomePath))
      case FlagValue(v) => if v == Some(Welcome.FlagValue) then Some(Replace(TabsPath)) else Some(Replace(WelcomePath))
  }

  /** What the screen renders. */
  datatype Screen = Spinner | Nothing | SignIn(buttonDisabled: bool)

  function Render(loading: bool, signedIn: bool, isSigningIn: bool): (s: Screen)
    ensures s == Spinner <==> loading
    ensures s == Nothing <==> !loading && signedIn
    ensures s.SignIn? ==> s.buttonDisabled == isSigningIn
  {
    if loading then Spinner
    else if signedIn then Nothing
    else SignIn(isSigningIn)
  }

  /** The screen either redirects or shows sign-in, never both, and shows nothing while it redirects. */
  lemma RenderMatchesRedirect(loading: bool, signedIn: bool, isSigningIn: bool, flag: FlagRead)
    ensures Redirect(loading, signedIn, flag).Some? <==> Render(loading, signedIn, isSigningIn) == Nothing
    ensures Render(loading, signedIn, isSigningIn).SignIn? ==> Redirect(loading, signedIn, flag).None?
  {
  }

  /** A device that has never finished onboarding sends a signed-in user to onboarding. */
  lemma FreshDeviceGoesToWelcome(items: map<string, string>)
    requires DeviceStorage.WelcomeFlagKey !in items
    ensures Redirect(false, true, FlagValue(DeviceStorage.Lookup(items, DeviceStorage.WelcomeFlagKey)))
            == Some(Replace(WelcomePath))
  {
  }

  /** Once onboarding has completed and its write succeeded, later sign-ins go straight to the tabs. */
  lemma CompletedOnboardingGoesToTabs(items: map<string, string>)
    ensures var after := Welcome.AfterComplete(items, false);
            Redirect(false, true, FlagValue(DeviceStorage.Lookup(after, DeviceStorage.WelcomeFlagKey)))
            == Some(Replace(TabsPath))
  {
  }

  /** The screen's own state. */
  class SignInScreen {
    var isSigningIn: bool
    var alert: Option<Alert>

    constructor()
      ensures !isSigningIn && alert == None
    {
      isSigningIn := false;
      alert := None;
    }

    /** `handleGoogleSignIn`; `fails` is the sign-in throwing. */
    method HandleGoogleSignIn(fails: bool)
      modifies this
      ensures fails ==> !isSigningIn && alert == Some(SignInFailedAlert)
      ensures !fails ==> isSigningIn && alert == old(alert)
    {
      isSigningIn := true;
      if fails {
        alert := Some(SignInFailedAlert);
        isSigningIn := false;
      }
    }
  }
}

=== FILE: mood_badge.dfy ===
/**
 * The mood badge (components/MoodBadge.tsx): a pill whose background colour is
 * looked up from a fixed mood table with a default, whose size defaults to small,
 * and whose text is the mood as given.
 */
module MoodBadge {
  import opened Wrappers

  const DefaultColor := "#8B5CF6"

  /** The mood colour table, including its own `default` entry. */
  const MoodColors: map<string, string> := map[
    "Happy" := "#10B981", "Joyful" := "#10B981",
    "Peaceful" := "#3B82F6", "Serene" := "#3B82F6",
    "Excited" := "#F59E0B", "Magical" := "#8B5CF6", "Adventurous" := "#F59E0B",
    "Confusing" := "#6B7280", "Mysterious" := "#6366F1", "Curious" := "#6366F1", "Strange" := "#6B7280",
    "Anxious" := "#EF4444", "Scary" := "#DC2626", "Sad" := "#6B7280",
    "Frustrated" := "#F97316", "Worried" := "#EF4444",
    "default" := DefaultColor
  ]

  /**
   * The property names every plain JavaScript object inherits from
   * `Object.prototype`; indexing the table with one of them yields a function or
   * an object, not a colour.
   */
  const InheritedNames: set<string> := {
    "constructor", "__proto__", "toString", "toLocaleString", "valueOf", "hasOwnProperty",
    "isPrototypeOf", "propertyIsEnumerable", "__defineGetter__", "__defineSetter__",
    "__lookupGetter__", "__lookupSetter__"
  }

  /** What `MOOD_COLORS[mood] || MOOD_COLORS.default` evaluates to. */
  datatype Paint = Colour(hex: string) | InheritedMember(name: string)

  /**
   * The lookup as written: an own entry, else an inherited member (always truthy,
   * so the default is not used), else the default.
   */
  function BackgroundAsWritten(mood: string): (p: Paint)
    ensures mood in MoodColors ==> p == Colour(MoodColors[mood])
    ensures mood !in MoodColors && mood in InheritedNames ==> p == InheritedMember(mood)
    ensures mood !in MoodColors && mood !in InheritedNames ==> p == Colour(DefaultColor)
  {
    if mood in MoodColors then Colour(MoodColors[mood])
    else if mood in InheritedNames then InheritedMember(mood)
    else Colour(DefaultColor)
  }

  /** A mood of "constructor" gets the `Object` function as its background instead of a colour. */
  lemma ConstructorMoodIsNotAColour()
    ensures !BackgroundAsWritten("constructor").Colour?
  {
  }

  /** The set of colours the table holds. */
  function Palette(): (p: set<string>)
    ensures DefaultColor in p
    ensures forall m :: m in MoodColors ==> MoodColors[m] in p
  {
    assert MoodColors["default"] == DefaultColor;
    set m | m in MoodColors :: MoodColors[m]
  }

  /** The lookup as intended: the mood's own entry, or the default colour. */
  function MoodColor(mood: string): (c: string)
    ensures mood in MoodColors ==> c == MoodColors[mood]
    ensures mood !in MoodColors ==> c == DefaultColor
    ensures c in Palette()
  {
    if mood in MoodColors then MoodColors[mood] else DefaultColor
  }

  /** The intended lookup differs from the written one only on inherited member names. */
  lemma MoodColorAgreesOutsideInheritedNames(mood: string)
    ensures mood !in InheritedNames ==> BackgroundAsWritten(mood) == Colour(MoodColor(mood))
    ensures mood in InheritedNames ==> BackgroundAsWritten(mood) != Colour(MoodColor(mood))
  {
  }

  /** Two table examples: a listed mood gets its colour, and lookup is case-sensitive. */
  lemma MoodColorExamples()
    ensures MoodColor("Anxious") == "#EF4444"
    ensures MoodColor("happy") == DefaultColor
    ensures MoodColor("Happy") == "#10B981"
  {
  }

  datatype Size = Small | Large

  /** What the badge renders. */
  datatype Badge = Badge(background: string, small: bool, text: string)

  /** `<MoodBadge mood size />`, with `size` omitted as `None`. */
  function Render(mood: string, size: Option<Size>): (b: Badge)
    ensures b.text == mood
    ensures b.small <==> size != Some(Large)
    ensures b.background == MoodColor(mood)
    ensures b.background in Palette()
    ensures mood in MoodColors ==> b.background == MoodColors[mood]
    ensures mood !in MoodColors ==> b.background == DefaultColor
  {
    Badge(MoodColor(mood), size.GetOr(Small) == Small, mood)
  }
}

=== FILE: new_dream.dfy ===
/**
 * The new-dream screen (app/dream/new.tsx): the entry is validated before
 * anything is saved, a voice transcription is merged into the text, cancel asks
 * for confirmation only when there is text to lose, and a save runs
 * create-then-analyze and either opens the saved dream or reports the error.
 */
module NewDreamScreen {
  import opened Wrappers
  import opened JsStrings
  import opened DreamTypes
  import opened Ui
  import ErrorHandler
  import Database

  const MinLength := 10
  const EmptyDreamAlert := Alert("Empty Dream", "Please enter your dream description.")
  const TooShortAlert := Alert("Too Short", "Please provide at least 10 characters to get meaningful insights.")
  const DiscardAlert := Alert("Discard Dream?", "Your dream will not be saved.")
  const SaveFailedMessage := "Failed to save your dream. Please try again."
  const Separator := "\n\n"

  /** The outcome of the checks at the start of `handleSave`. */
  datatype Validation = EmptyDream | TooShort | Accepted(text: string)

  /**
   * An entry of only white space is empty, one under ten characters once trimmed
   * is too short, and an accepted entry is the trimmed text, which neither starts
   * nor ends with white space.
   */
  function ValidateEntry(content: string): (v: Validation)
    ensures v == EmptyDream <==> AllSpace(content)
    ensures v == TooShort <==> !AllSpace(content) && |Trim(content)| < MinLength
    ensures v.Accepted? ==> v.text == Trim(content) && |v.text| >= MinLength
    ensures v.Accepted? ==> !IsJsSpace(v.text[0]) && !IsJsSpace(v.text[|v.text| - 1])
  {
    var t := Trim(content);
    if |t| == 0 then EmptyDream
    else if |t| < MinLength then TooShort
    else Accepted(t)
  }

  /** The record `handleSave` passes to `createAndAnalyzeDream`. */
  function SaveInput(content: string, dreamDateIso: string, isLucid: bool): CreateDreamInput {
    CreateDreamInput(Trim(content), Some(Database.DatePart(dreamDateIso)), Some(isLucid))
  }

  /** The alert shown when the save throws with message `m`. */
  function SaveErrorAlert(m: string): (a: Alert)
    ensures a.title == "Error"
    ensures m != "" ==> a.message == m
    ensures m == "" ==> a.message == SaveFailedMessage
  {
    var text := ErrorHandler.GetErrorMessage(ErrorHandler.ThrownError(m, None));
    Alert("Error", if text != "" then text else SaveFailedMessage)
  }

  /** `handleTranscription`'s new content. */
  function MergeTranscript(content: string, transcript: string): (r: string)
    ensures AllSpace(content) ==> r == transcript
    ensures !AllSpace(content) ==>
              && |r| == |content| + |Separator| + |transcript|
              && r[..|content|] == content
              && r[|content|..|content| + |Separator|] == Separator
              && r[|content| + |Separator|..] == transcript
  {
    if |Trim(content)| > 0 then content + Separator + transcript else transcript
  }

  /** Merging never loses the transcript: it is always the tail of the new content. */
  lemma TranscriptIsSuffix(content: string, transcript: string)
    ensures var r := MergeTranscript(content, transcript);
            |transcript| <= |r| && r[|r| - |transcript|..] == transcript
  {
  }

  /** What `handleCancel` does: ask to discard, or go straight back. */
  datatype CancelAction = ConfirmDiscard | GoBack

  function CancelActionFor(content: string): (a: CancelAction)
    ensures a == ConfirmDiscard <==> !AllSpace(content)
  {
    if |Trim(content)| > 0 then ConfirmDiscard else GoBack
  }

  /** A save of an accepted entry stores its trimmed text and the picked date's date part. */
  lemma SavedDreamKeepsTrimmedEntry(
    rows: Database.Table, content: string, dreamDateIso: string, isLucid: bool, b: Database.Backend)
    requires ValidateEntry(content).Accepted?
    requires Database.DatePart(dreamDateIso) != ""
    requires Database.CreateOutcome(rows, SaveInput(content, dreamDateIso, isLucid), b).Success?
    ensures var d := Database.CreateAndAnalyze(rows, SaveInput(content, dreamDateIso, isLucid), b).result.value;
            d.content == Trim(content) && d.dreamDate == Database.DatePart(dreamDateIso) && d.isLucid == isLucid
  {
    TrimIdempotent(content);
  }

  /** The screen's state. `dreamDate` is the picked date as `toISOString()` gives it. */
  class NewDreamForm {
    var content: string
    var dreamDate: string
    var isLucid: bool
    var isSaving: bool
    var showVoiceRecorder: bool
    var alert: Option<Alert>
    var navigation: Option<Navigation>

    constructor(nowIso: string)
      ensures content == "" && dreamDate == nowIso && !isLucid
      ensures !isSaving && !showVoiceRecorder && alert == None && navigation == None
    {
      content := "";
      dreamDate := nowIso;
      isLucid := false;
      isSaving := false;
      showVoiceRecorder := false;
      alert := None;
      navigation := None;
    }

    /** `handleSave`. */
    method HandleSave(store: Database.DreamStore, b: Database.Backend)
      modifies this, store
      ensures content == old(content) && dreamDate == old(dreamDate) && isLucid == old(isLucid)
      ensures showVoiceRecorder == old(showVoiceRecorder)
      // a rejected entry shows its alert and saves nothing
      ensures !ValidateEntry(old(content)).Accepted? ==>
                && store.rows == old(store.rows)
                && alert == Some(if ValidateEntry(old(content)) == EmptyDream then EmptyDreamAlert else TooShortAlert)
                && isSaving == old(isSaving) && navigation == old(navigation)
      // an accepted entry goes through create-then-analyze
      ensures ValidateEntry(old(content)).Accepted? ==>
                var round := Database.CreateAndAnalyze(old(store.rows), SaveInput(old(content), old(dreamDate), old(isLucid)), b);
                && store.rows == round.rows
                && (round.result.Success? ==>
                      isSaving && navigation == Some(Replace("/dream/" + round.result.value.id)) && alert == old(alert))
                && (round.result.Failure? ==>
                      !isSaving && alert == Some(SaveErrorAlert(round.result.error)) && navigation == old(navigation))
    {
      var v := ValidateEntry(content);
      if v == EmptyDream {
        alert := Some(EmptyDreamAlert);
        return;
      }
      if v == TooShort {
        alert := Some(TooShortAlert);
        return;
      }
      isSaving := true;
      var input := SaveInput(content, dreamDate, isLucid);
      var r := store.CreateAndAnalyzeDream(input, b);
      if r.Success? {
        navigation := Some(Replace("/dream/" + r.value.id));
      } else {
        alert := Some(SaveErrorAlert(r.error));
        isSaving := false;
      }
    }

    /** `handleTranscription`: merge the text and always hide the recorder. */
    method HandleTranscription(transcript: string)
      modifies this
      ensures content == MergeTranscript(old(content), transcript)
      ensures !showVoiceRecorder
      ensures dreamDate == old(dreamDate) && isLucid == old(isLucid) && isSaving == old(isSaving)
      ensures alert == old(alert) && navigation == old(navigation)
    {
      content := MergeTranscript(content, transcript);
      showVoiceRecorder := false;
    }

    /** `handleCancel`. */
    method HandleCancel()
      modifies this
      ensures CancelActionFor(old(content)) == ConfirmDiscard ==>
                alert == Some(DiscardAlert) && navigation == old(navigation)
      ensures CancelActionFor(old(content)) == GoBack ==> navigation == Some(Back) && alert == old(alert)
      ensures content == old(content) && dreamDate == old(dreamDate) && isLucid == old(isLucid)
      ensures isSaving == old(isSaving) && showVoiceRecorder == old(showVoiceRecorder)
    {
      if CancelActionFor(content) == ConfirmDiscard {
        alert := Some(DiscardAlert);
      } else {
        navigation := Some(Back);
      }
    }

    /** The "Discard" button of the confirmation dialog. */
    method PressDiscard()
      modifies this
      ensures navigation == Some(Back)
      ensures content == old(content) && dreamDate == old(dreamDate) && isLucid == old(isLucid)
      ensures isSaving == old(isSaving) && showVoiceRecorder == old(showVoiceRecorder) && alert == old(alert)
    {
      navigation := Some(Back);
    }
  }
}

=== FILE: ui.dfy ===
/** What the screens show or do besides their own state: alert dialogs and navigation requests. */
module Ui {
  /** An `Alert.alert(title, message)` dialog. */
  datatype Alert = Alert(title: string, message: string)

  /** A router call: `router.replace(path)` or `router.back()`. */
  datatype Navigation = Replace(path: string) | Back

  const TabsPath := "/(tabs)"
  const WelcomePath := "/welcome"
}

=== FILE: welcome.dfy ===
/**
 * The onboarding screen (app/welcome.tsx): a four-step stepper whose "Next"
 * button advances until the last step and then completes, a "Skip" button that
 * completes from any step, and completion, which records the `hasSeenWelcome`
 * flag on the device and always opens the tabs.
 */
module Welcome {
  import opened Wrappers
  import opened Ui
  import DeviceStorage

  /** One entry of the onboarding steps table. */
  datatype StepData = StepData(icon: string, title: string, description: string, color: string)

  const Steps: seq<StepData> := [
    StepData("moon", "Welcome to Dreamy",
      "Your personal AI-powered dream journal. Record, analyze, and understand your dreams like never before.",
      "#8B5CF6"),
    StepData("mic", "Record Your Dreams",
      "Capture your dreams using text or voice input. The sooner you record, the more details you'll remember.",
      "#6366F1"),
    StepData("sparkles", "AI-Powered Insights",
      "Get instant psychological interpretations, mood analysis, and discover recurring themes in your dreams.",
      "#3B82F6"),
    StepData("heart", "Track Your Patterns",
      "Explore emotional patterns, lucid dreaming experiences, and unlock insights about your subconscious mind.",
      "#EC4899")
  ]

  const LastStep := |Steps| - 1
  const FilledDot := "#8B5CF6"
  const EmptyDot := "#D1D5DB"
  const FlagValue := "true"

  /** What the screen shows for a step. */
  datatype StepView = StepView(
    dots: seq<string>,      // progress dot colours, one per step
    step: StepData,
    showFeatures: bool,     // the feature list under the description
    showSkip: bool,
    nextLabel: string,
    showArrow: bool)        // the arrow icon on the next button

  function View(currentStep: nat): (v: StepView)
    requires currentStep < |Steps|
    ensures |v.dots| == |Steps|
    ensures forall i :: 0 <= i < |v.dots| ==> (v.dots[i] == FilledDot <==> i <= currentStep)
    ensures v.step == Steps[currentStep]
    ensures v.showFeatures <==> currentStep == 0
    ensures v.showSkip <==> currentStep < LastStep
    ensures v.showArrow <==> v.showSkip
    ensures v.nextLabel == (if currentStep == LastStep then "Get Started" else "Next")
  {
    StepView(
      dots := seq(|Steps|, i => if i <= currentStep then FilledDot else EmptyDot),
      step := Steps[currentStep],
      showFeatures := currentStep == 0,
      showSkip := currentStep < LastStep,
      nextLabel := if currentStep == LastStep then "Get Started" else "Next",
      showArrow := currentStep < LastStep)
  }

  /** The number of filled dots. */
  function FilledCount(dots: seq<string>): nat {
    if dots == [] then 0 else (if dots[0] == FilledDot then 1 else 0) + FilledCount(dots[1..])
  }

  /** Dots filled exactly on a prefix of length `k` count to `k`. */
  lemma {:induction false} FilledPrefixCount(dots: seq<string>, k: nat)
    requires k <= |dots|
    requires forall i :: 0 <= i < |dots| ==> (dots[i] == FilledDot <==> i < k)
    ensures FilledCount(dots) == k
  {
    if dots != [] {
      var k' := if k == 0 then 0 else k - 1;
      assert forall i :: 0 <= i < |dots[1..]| ==> dots[1..][i] == dots[i + 1];
      FilledPrefixCount(dots[1..], k');
    }
  }

  /** Step `s` shows `s + 1` filled dots. */
  lemma FilledDotsShowProgress(currentStep: nat)
    requires currentStep < |Steps|
    ensures FilledCount(View(currentStep).dots) == currentStep + 1
  {
    FilledPrefixCount(View(currentStep).dots, currentStep + 1);
  }

  /** The device's items after completion's `setItem('hasSeenWelcome', 'true')`, which may fail. */
  function AfterComplete(items: map<string, string>, writeFails: bool): (r: map<string, string>)
    ensures !writeFails ==> DeviceStorage.Lookup(r, DeviceStorage.WelcomeFlagKey) == Some(FlagValue)
    ensures writeFails ==> r == items
    ensures forall k :: k != DeviceStorage.WelcomeFlagKey ==> DeviceStorage.Lookup(r, k) == DeviceStorage.Lookup(items, k)
  {
    if writeFails then items else items[DeviceStorage.WelcomeFlagKey := FlagValue]
  }

  /** The stepper's state: the current step and the navigation it requested. */
  class Onboarding {
    var currentStep: nat
    var navigation: Option<Navigation>

    /** There are four steps, and the current one is always one of them. */
    ghost predicate Valid()
      reads this
    {
      currentStep < |Steps|
    }

    constructor()
      ensures Valid() && currentStep == 0 && navigation == None
    {
      currentStep := 0;
      navigation := None;
    }

    /** `handleComplete`: record the flag, then open the tabs whether or not the write worked. */
    method HandleComplete(storage: DeviceStorage.KeyValueStore, writeFails: bool)
      modifies this, storage
      ensures storage.items == AfterComplete(old(storage.items), writeFails)
      ensures navigation == Some(Replace(TabsPath))
      ensures currentStep == old(currentStep)
    {
      var _ := storage.SetItem(DeviceStorage.WelcomeFlagKey, FlagValue, writeFails);
      navigation := Some(Replace(TabsPath));
    }

    /** `handleNext`: advance, or complete on the last step. */
    method HandleNext(storage: DeviceStorage.KeyValueStore, writeFails: bool)
      requires Valid()
      modifies this, storage
      ensures Valid()
      ensures old(currentStep) < LastStep ==>
                && currentStep == old(currentStep) + 1
                && navigation == old(navigation) && storage.items == old(storage.items)
      ensures old(currentStep) == LastStep ==>
                && currentStep == old(currentStep)
                && navigation == Some(Replace(TabsPath))
                && storage.items == AfterComplete(old(storage.items), writeFails)
    {
      if currentStep < LastStep {
        currentStep := currentStep + 1;
      } else {
        HandleComplete(storage, writeFails);
      }
    }

    /** `handleSkip`: complete from any step. */
    method HandleSkip(storage: DeviceStorage.KeyValueStore, writeFails: bool)
      requires Valid()
      modifies this, storage
      ensures Valid() && currentStep == old(currentStep)
      ensures navigation == Some(Replace(TabsPath))
      ensures storage.items == AfterComplete(old(storage.items), writeFails)
    {
      HandleComplete(storage, writeFails);
    }
  }
}

=== FILE: wrappers.dfy ===
/** Optional values and results shared by the whole model. */
module Wrappers {

  /** A value that may be absent: JavaScript's `undefined` / `null`. */
  datatype Option<+T> = None | Some(value: T) {
    function GetOr(default: T): T {
      match this
      case Some(v) => v
      case None => default
    }
  }

  /** The outcome of an operation that either yields a value or throws an error message. */
  datatype Result<+R, +E> = Success(value: R) | Failure(error: E)
}
